=== FILE: README.md ===
# ziptrainer: a Dafny model of the reflex-timing game

ziptrainer is a terminal reflex trainer. A countdown runs for three seconds.
A one-second window follows, and the player must press `W` inside it.
Each tick of a 60 Hz loop reads at most one key. It then runs the handler
of the current game state: STANDBY, TIMING or GAME_OVER. Every status line
goes through `pr`, which pads it with spaces to the widest line printed so
far, so that a shorter line fully hides a longer one on the same terminal line.

This project models that per-tick logic as pure functions:

- `Keys`: trigger-key detection (`trigger_key_detected`).
- `Render`: `pr` and its padding. A small model of the terminal line shows
  what remains visible after a carriage return and an overwrite.
- `Countdown`: the `"%.2f"` text of the countdown, over exact reals.
- `Game`: the three states and the session record. The session holds the
  globals `GAME_STATE`, `TIME_START_SEC` and `MAX_STR`. The module also has
  the three handlers, `start_new_game`, the state dispatch of `handle_input`,
  and `Step`, one whole tick.
- `Driver`: `main`'s start-up and the tick loop. The loop runs over an
  explicit sequence of inputs, each a key (or none) and a clock reading.
- `Scenarios`: complete rounds with the default configuration.

The key read each tick is a parameter, and so is the clock reading.

In a few places the code behaves differently from what a reader might expect. The model follows the code:

- A too-early press would be expected to end the game. Instead it prints
  "Too early!" and returns to STANDBY, not GAME_OVER (`ziptrainer.py:50`). `Game.StandbyActsLikeGameOver` proves
  the two states react identically to every key and time, so the difference
  cannot be observed.
- One might expect STANDBY to keep showing the prompt. It prints nothing per
  tick: the "press W to start" prompt is printed once, by `main` (`Driver.Boot`).
- The round start is not cleared when a round ends. It is unset only before
  the first round. The invariant is therefore one-directional: TIMING implies
  a start time is set (`Game.Valid`). It is not an if-and-only-if.
- Elapsed time below zero (a clock that stepped back) counts as "early". The
  code only checks `elapsed < INPUT_DELAY_SEC`.

## Model

| member | source | states |
|---|---|---|
| Keys.UpperChar | ziptrainer.py:78 | upper-casing gives `W` exactly for `w` and `W`; characters other than `a`-`z` are unchanged |
| Keys.Upper | ziptrainer.py:78 | `key.upper()` keeps the length and upper-cases each character in place |
| Keys.TriggerKeyDetected | ziptrainer.py:76-80 | the trigger fires exactly when a key was read and it is `"w"` or `"W"`; no key, an empty read or any other text is "not pressed", never an error |
| Render.Spaces | ziptrainer.py:104 | `" " * n` is `n` characters long and made only of spaces |
| Render.Pr | ziptrainer.py:99-104 | the new maximum width is the larger of the old one and the text length, so it never shrinks; the padded line is exactly that wide; it starts with the text and the rest is spaces |
| Render.PrAll | ziptrainer.py:99-104 | successive `pr` calls never narrow the width; the width ends as the largest of the old width and all text lengths; each line is at least the old width; lines never get shorter; the last line is exactly the final width |
| Render.PrAllPadsEachLine | ziptrainer.py:102-104 | every line that successive `pr` calls print is its own text followed only by spaces |
| Render.Overwrite | ziptrainer.py:105 | printing `"\r" + line` replaces the start of the terminal line with `line`; any longer tail of the old content stays visible |
| Render.ShowAll | ziptrainer.py:105 | after printing several lines the terminal line starts with the last one; it is as wide as the widest of the old content and the printed lines |
| Render.PrAllLeavesNoStaleCharacters | ziptrainer.py:99-105 | if the terminal line is no wider than the running maximum, the screen afterwards is exactly the last padded line: its text, then spaces, with no leftover characters |
| Countdown.RoundHalfEven | ziptrainer.py:46 | the result is within one half of the value, and an exact tie rounds to an even number |
| Countdown.NatToDecimal | ziptrainer.py:46 | the integer part is written as digits only, with no leading zero, and is one digit exactly when it is below 10 |
| Countdown.DecimalRoundTrip | ziptrainer.py:46 | reading back the decimal text of a number gives that number |
| Countdown.Centis | ziptrainer.py:46 | the shown hundredths are within half a hundredth of the value |
| Countdown.Fixed2NonNegative | ziptrainer.py:46 | `"%.2f"` of a non-negative value is digits, a point, then two digits, with no leading zero in the integer part; it is 4 characters exactly when it rounds below 10.00 |
| Countdown.Fixed2 | ziptrainer.py:46 | `"%.2f"` of any value is an optional minus sign, present exactly when the value is negative, then digits (the first one a digit, never a leading zero), a point and two digits; the signed text reads back as the value rounded to hundredths, ties to even, so the text is fixed |
| Countdown.RoundHalfEvenIsSymmetric | ziptrainer.py:46 | rounding half to even commutes with negation: a negative value rounds to minus the rounding of its magnitude |
| Countdown.SmallNegativeReadsMinusZero | ziptrainer.py:46 | a negative value that rounds to zero hundredths (strictly between -0.005 and 0) is written "-0.00" |
| Countdown.Fixed2ReadsBack | ziptrainer.py:46 | reading the text back, without its point, gives the rounded hundredths, which lie within 0.005 of the value |
| Countdown.CountdownTextWidth | ziptrainer.py:43-46 | a time left in (0, 3] prints as 4 characters |
| Countdown.SteppedBackClockWidensCountdown | ziptrainer.py:42-46 | when the wall clock steps back, the time left can exceed the delay and the text gets wider: 10.5 seconds left reads "10.50" |
| Countdown.TwoSecondsLeftReads200 | ziptrainer.py:43-46 | two seconds left is shown as "2.00" |
| Game.Text | ziptrainer.py:46-60 | the messages' texts (the prompt literal is the one `main` prints at line 110): only the countdown has a decimal point three characters from its end, and it reads back as the time left rounded to hundredths; fixed messages are at most 18 characters |
| Game.StartNewGame | ziptrainer.py:69-73 | a new round is TIMING with its start set to now and prints nothing; at that instant the countdown branch applies |
| Game.HandleStandby | ziptrainer.py:32-34 | prints nothing; enters TIMING with start now exactly for "w" or "W"; otherwise stays STANDBY with the round start unchanged |
| Game.HandleTiming | ziptrainer.py:37-61 | the first message is the positive time left, "Now!" or "You were too slow!" exactly as the elapsed time is below DELAY, in [DELAY, DELAY+WINDOW) or past it; a trigger adds "Too early!" or "Perfect!" in the first two cases; the round goes on exactly when it is not over and no trigger came; only an early trigger returns to STANDBY; the start is kept |
| Game.HandleGameOver | ziptrainer.py:64-66 | prints nothing; enters TIMING with start now exactly for "w" or "W"; otherwise stays GAME_OVER with the round start unchanged |
| Game.Dispatch | ziptrainer.py:84-94 | one handler runs per tick; outside TIMING nothing is rendered and only the trigger changes the state; in TIMING the round start is kept and something is rendered; TIMING always has a start |
| Game.Step | ziptrainer.py:84-94 | a tick keeps the session valid and never narrows the width; it prints at most two lines, and prints only in TIMING; the round start stays fixed while a round goes on, and a new start is the current time; in TIMING the first line is the countdown, "Now!" or the too-slow message exactly as the elapsed time is below DELAY, in [DELAY, DELAY+WINDOW) or past it, so exactly one time branch applies per tick |
| Game.IdleWithoutTrigger | ziptrainer.py:32-34 | in STANDBY or GAME_OVER, a tick without the trigger changes no state, start or width, and prints nothing |
| Game.TriggerStartsRound | ziptrainer.py:69-73 | in STANDBY or GAME_OVER the trigger starts TIMING with the round start set to now and prints nothing; the elapsed time is then 0, which is inside the countdown |
| Game.CountdownTick | ziptrainer.py:42-50 | while elapsed < DELAY, the positive time left `DELAY - elapsed` is shown first; with the trigger, "Too early!" follows and the state becomes STANDBY; without it, the state stays TIMING |
| Game.WindowTick | ziptrainer.py:52-57 | inside the window "Now!" is shown first; with the trigger, "Perfect!" follows and the state becomes GAME_OVER; without it, the state stays TIMING |
| Game.LateTick | ziptrainer.py:59-61 | from DELAY+WINDOW on, only "You were too slow!" is shown and the state becomes GAME_OVER, whatever the key |
| Game.WindowIsHalfOpen | ziptrainer.py:45-53 | elapsed exactly DELAY is in the "Now!" window; elapsed exactly DELAY+WINDOW is already too slow |
| Game.CountdownStrictlyDecreases | ziptrainer.py:42-46 | on two successive countdown ticks of one round, with the clock strictly increasing, the time left shown strictly decreases |
| Game.CountdownWithinDelay | ziptrainer.py:42-46 | if the clock has not stepped back since the round started, every countdown a tick shows is in (0, DELAY], and a round still running started no later than now |
| Game.StepPadsLines | ziptrainer.py:99-105 | every line a tick prints is its message's text followed by spaces; the last one spans the full padding width |
| Game.StandbyActsLikeGameOver | ziptrainer.py:64-66 | STANDBY and GAME_OVER print the same lines and set the same start and width for every key and time; they leave together for TIMING or not at all |
| Driver.Boot | ziptrainer.py:108-110 | start-up is STANDBY with no round start; the prompt is on screen, and the padding width is the prompt's length |
| Driver.HandleInput | ziptrainer.py:83-94 | one tick moves the session as `Step` does, keeps the terminal line no wider than the padding width, and never narrows the width |
| Driver.Run | ziptrainer.py:96 | any sequence of ticks keeps the session valid and the terminal line no wider than the padding width; the width never shrinks |
| Driver.Play | ziptrainer.py:122-125 | the tick loop, run once per input in order, ends in the same program state as `Run` |
| Driver.CountdownsStayWithinDelay | ziptrainer.py:42-46 | over a run whose clock never steps back, every countdown shown lies in (0, DELAY] |
| Driver.CountdownTextsAreFourWide | ziptrainer.py:42-46 | over a run whose clock never steps back, every countdown shown prints as 4 characters |
| Driver.ScreenShowsLastMessage | ziptrainer.py:99-105 | after a tick that prints, the terminal shows exactly its last message followed by spaces; after a tick that prints nothing, the screen is unchanged |
| Driver.OutcomeStaysWithoutTrigger | ziptrainer.py:64-66 | outside a round, any run of ticks without the trigger leaves the program state and the screen untouched, so the last outcome stays visible |
| Scenarios.PressInStandbyStartsRound | ziptrainer.py:32-34 | "w" in STANDBY starts TIMING with the round start set to now |
| Scenarios.OneSecondInShowsTwoSecondsLeft | ziptrainer.py:42-46 | one second in, with no key, the state stays TIMING and the screen shows "2.00" padded |
| Scenarios.PressInWindowIsPerfect | ziptrainer.py:52-57 | "W" at 3.5 s shows "Now!" then "Perfect!" and moves to GAME_OVER |
| Scenarios.PressInCountdownIsTooEarly | ziptrainer.py:45-50 | "w" at 1 s shows the countdown then "Too early!" and moves to STANDBY |
| Scenarios.NoPressIsTooSlow | ziptrainer.py:59-61 | no key at 4.5 s shows "You were too slow!" and moves to GAME_OVER |
| Scenarios.PressInGameOverStartsRound | ziptrainer.py:64-73 | "w" in GAME_OVER starts a fresh round at the current time |
| Scenarios.PerfectRoundFromBoot | ziptrainer.py:108-110 | from start-up, "w", a countdown tick, then "W" at 3.5 s ends in GAME_OVER; the screen shows "Perfect!" padded to the prompt's 16 characters |

## Left out

- Terminal set-up and restore with `termios` and `fcntl` (`ziptrainer.py:112-120`, `127-128`). This is operating-system I/O.
- The `sched` scheduler, its `1/FPS` self-rescheduling and its sleeping (`ziptrainer.py:96`, `122-125`). The loop is modelled as a sequence of ticks, one per input. The ticks' real-time spacing is not modelled.
- `sys.stdin.read(1)` (`ziptrainer.py:85`) and `time.time()` (`ziptrainer.py:42`, `72`). Each tick instead takes an optional key and a clock reading as parameters.
- The `print` call itself (`ziptrainer.py:105`). The printed lines are returned, and `Render.Overwrite` models their effect on the terminal line.
- The `ValueError` for an unknown state (`ziptrainer.py:93-94`). The state is a datatype and the dispatch is an exhaustive match, so this branch cannot be reached.
- Floating point. Times are exact reals, so the model ignores rounding in `time_elapsed` and `time_left`.
- Keys.Upper: upper-cases ASCII letters only, whereas Python's `str.upper` uses full Unicode case mapping. For the comparison with `"W"` the two agree: only `w` and `W` upper-case to `W`.
- Countdown.CountdownTextWidth: holds only while the time left is in (0, 3]. `time.time()` is a wall clock that can step back, and then the countdown is wider (`Countdown.SteppedBackClockWidensCountdown`).
- Countdown.Fixed2: rounds the exact real value to hundredths. `"%.2f"` rounds the binary double nearest to the value, so the two can differ on values very close to a tie.

=== FILE: config.dfy ===
/** The configuration globals at the top of ziptrainer.py. */
module Config {

  /** Seconds of countdown before the input window opens (INPUT_DELAY_SEC). */
  const InputDelaySec: real := 3.0

  /** Length in seconds of the window in which a press is "Perfect!" (INPUT_WINDOW_SEC). */
  const InputWindowSec: real := 1.0

  /** The trigger key, compared after upper-casing the key that was read. */
  const TriggerChar: char := 'W'

}

=== FILE: countdown.dfy ===
/**
 * The countdown text `"%.2f" % time_left` of ziptrainer.py, over exact reals:
 * the value is rounded to the nearest hundredth (ties to even, as printf-style
 * formatting does) and written as decimal digits, a point and two digits.
 */
module Countdown {

  /** The integer nearest to `x`; an exact tie goes to the even neighbour. */
  function RoundHalfEven(x: real): (n: int)
    ensures (n as real) - 0.5 <= x <= (n as real) + 0.5
    ensures x - (n as real) == 0.5 || (n as real) - x == 0.5 ==> n % 2 == 0
  {
    var f := x.Floor;
    var d := x - f as real;
    if d > 0.5 || (d == 0.5 && f % 2 != 0) then f + 1 else f
  }

  /** The decimal digit for `d`. */
  function Digit(d: nat): (c: char)
    requires d < 10
    ensures '0' <= c <= '9'
    ensures (c as int) - ('0' as int) == d
  {
    ('0' as int + d) as char
  }

  /** `n` in decimal without leading zeros (a single "0" for zero). */
  function NatToDecimal(n: nat): (s: string)
    ensures |s| >= 1
    ensures forall i :: 0 <= i < |s| ==> '0' <= s[i] <= '9'
    ensures n < 10 <==> |s| == 1
    ensures n >= 10 ==> s[0] != '0'
    decreases n
  {
    if n < 10 then [Digit(n)] else NatToDecimal(n / 10) + [Digit(n % 10)]
  }

  /** The number a string of decimal digits denotes. */
  function DecimalValue(s: string): int
    decreases |s|
  {
    if s == [] then 0 else 10 * DecimalValue(s[..|s| - 1]) + ((s[|s| - 1] as int) - ('0' as int))
  }

  /** Reading back the decimal text of `n` gives `n`. */
  lemma {:induction false} DecimalRoundTrip(n: nat)
    ensures DecimalValue(NatToDecimal(n)) == n
    decreases n
  {
    if n >= 10 {
      DecimalRoundTrip(n / 10);
      var s := NatToDecimal(n);
      assert s[..|s| - 1] == NatToDecimal(n / 10);
    }
  }

  /** The number of hundredths `"%.2f"` shows for a non-negative `x`. */
  function Centis(x: real): (c: nat)
    requires x >= 0.0
    ensures (c as real) / 100.0 - 0.005 <= x <= (c as real) / 100.0 + 0.005
  {
    RoundHalfEven(x * 100.0)
  }

  /** `"%.2f" % x` for a non-negative `x`. */
  function Fixed2NonNegative(x: real): (s: string)
    requires x >= 0.0
    ensures |s| >= 4 && s[|s| - 3] == '.'
    ensures forall i :: 0 <= i < |s| && i != |s| - 3 ==> '0' <= s[i] <= '9'
    ensures Centis(x) < 1000 <==> |s| == 4
    ensures s[0] == '0' ==> |s| == 4
  {
    var c := Centis(x);
    NatToDecimal(c / 10 / 10) + ['.', Digit(c / 10 % 10), Digit(c % 10)]
  }

  /**
   * `"%.2f" % x`: an optional minus sign (present exactly when `x` is
   * negative), digits, a point and two digits; reading the text back gives
   * `x` rounded to hundredths, ties to even. The integer part has no leading
   * zero, so these facts fix the text.
   */
  function Fixed2(x: real): (s: string)
    ensures |s| >= 4 && s[|s| - 3] == '.'
    ensures s[0] == '-' <==> x < 0.0
    ensures x >= 0.0 ==> '0' <= s[0] <= '9'
    ensures forall i :: 0 < i < |s| && i != |s| - 3 ==> '0' <= s[i] <= '9'
    ensures ReadFixed2(s) == RoundHalfEven(x * 100.0)
    ensures var d := if x < 0.0 then 1 else 0; s[d] == '0' ==> |s| == d + 4
  {
    if x < 0.0 then
      var y := -x;
      NegativeReadsBack(y);
      assert y * 100.0 == -(x * 100.0);
      RoundHalfEvenIsSymmetric(x * 100.0);
      "-" + Fixed2NonNegative(y)
    else
      Fixed2ReadsBack(x);
      Fixed2NonNegative(x)
  }

  /**
   * A minus sign in front of the text of `y` gives a well-formed signed text
   * that reads back as minus the hundredths of `y`.
   */
  lemma NegativeReadsBack(y: real)
    requires y >= 0.0
    ensures var s := "-" + Fixed2NonNegative(y);
            && |s| >= 4 && s[|s| - 3] == '.' && s[0] == '-'
            && (forall i :: 0 < i < |s| && i != |s| - 3 ==> '0' <= s[i] <= '9')
            && ReadFixed2(s) == -(Centis(y) as int)
            && (s[1] == '0' ==> |s| == 5)
  {
    var t := Fixed2NonNegative(y);
    var s := "-" + t;
    assert s[1..] == t;
    assert forall i :: 0 < i < |s| ==> s[i] == t[i - 1];
    Fixed2ReadsBack(y);
  }

  /** The signed number of hundredths a `"%.2f"` text denotes. */
  function ReadFixed2(s: string): int
    requires |s| >= 3
  {
    if s[0] == '-' && |s| >= 4 then -DecimalValue(DropPoint(s[1..])) else DecimalValue(DropPoint(s))
  }

  /** Rounding half to even commutes with negation. */
  lemma RoundHalfEvenIsSymmetric(x: real)
    ensures RoundHalfEven(-x) == -RoundHalfEven(x)
  {
    var n, m := RoundHalfEven(x), -RoundHalfEven(-x);
    assert m - 1 <= n <= m + 1;
  }

  /** The digits of a `"%.2f"` text with the point removed. */
  function DropPoint(s: string): string
    requires |s| >= 3
  {
    s[..|s| - 3] + s[|s| - 2..]
  }

  /** Appending a digit to a decimal text multiplies its value by ten and adds the digit. */
  lemma DecimalAppend(s: string, d: nat)
    requires d < 10
    ensures DecimalValue(s + [Digit(d)]) == 10 * DecimalValue(s) + d
  {
    assert (s + [Digit(d)])[..|s|] == s;
  }

  /**
   * Reading a non-negative `"%.2f"` text back gives a number of hundredths
   * that lies within half a hundredth of the value formatted.
   */
  lemma Fixed2ReadsBack(x: real)
    requires x >= 0.0
    ensures DecimalValue(DropPoint(Fixed2NonNegative(x))) == Centis(x)
    ensures (Centis(x) as real) / 100.0 - 0.005 <= x <= (Centis(x) as real) / 100.0 + 0.005
  {
    var c := Centis(x);
    var head := NatToDecimal(c / 10 / 10);
    assert DropPoint(Fixed2NonNegative(x)) == head + [Digit(c / 10 % 10)] + [Digit(c % 10)];
    DecimalRoundTrip(c / 10 / 10);
    DecimalAppend(head, c / 10 % 10);
    DecimalAppend(head + [Digit(c / 10 % 10)], c % 10);
  }

  /** A negative value that rounds to zero hundredths reads "-0.00". */
  lemma SmallNegativeReadsMinusZero(x: real)
    requires -0.005 < x < 0.0
    ensures Fixed2(x) == "-0.00"
  {
    assert Centis(-x) == 0;
    assert NatToDecimal(0) == "0";
  }

  /**
   * A time left in (0, 3] is four characters wide. A clock that never steps
   * back keeps the time left in that range (`Driver.CountdownsStayWithinDelay`);
   * see `SteppedBackClockWidensCountdown` for one that does.
   */
  lemma CountdownTextWidth(x: real)
    requires 0.0 < x <= 3.0
    ensures |Fixed2(x)| == 4
  {
    assert Centis(x) <= 300;
  }

  /**
   * A wall clock that steps back makes the time left exceed the delay, and
   * the countdown then gets wider: 10.5 seconds left reads "10.50".
   */
  lemma SteppedBackClockWidensCountdown()
    ensures Fixed2(10.5) == "10.50"
  {
    assert Centis(10.5) == 1050;
    assert NatToDecimal(10) == "10" by {
      assert NatToDecimal(1) == "1";
    }
    assert Fixed2NonNegative(10.5) == NatToDecimal(10) + ['.', Digit(5), Digit(0)];
    assert Fixed2(10.5) == Fixed2NonNegative(10.5);
  }

  /** The countdown one second into a three-second delay reads "2.00". */
  lemma TwoSecondsLeftReads200()
    ensures Fixed2(2.0) == "2.00"
  {
    assert Centis(2.0) == 200;
    assert NatToDecimal(2) == "2";
  }

}

=== FILE: driver.dfy ===
/**
 * The program around the state machine in ziptrainer.py: `main` starts in
 * STANDBY and prints the prompt once, then every tick of the scheduler
 * reads at most one key and runs `handle_input`. The scheduler's pacing is
 * replaced by an explicit sequence of inputs, each carrying the key read
 * (if any) and the clock reading of its tick. The terminal line is modelled
 * as the string it currently shows.
 */
module Driver {

  import opened Options
  import Config
  import Countdown
  import Keys
  import Render
  import opened Game

  /** What one tick sees: the key read, if any, and the clock. */
  datatype Input = Input(key: Option<string>, now: real)

  /** The whole program state: the game session and what the terminal line shows. */
  datatype Terminal = Terminal(session: Session, screen: string)

  /** The session is valid and the terminal line is no wider than the padding width. */
  predicate Coherent(t: Terminal)
  {
    Valid(t.session) && |t.screen| <= t.session.maxWidth
  }

  /**
   * `main` before the loop: STANDBY, no round start yet, and the prompt
   * printed once on an empty terminal line, which sets the padding width.
   */
  function Boot(): (t: Terminal)
    ensures Coherent(t)
    ensures t.session.state == Standby && t.session.start == None
    ensures t.screen == Text(PressToStart)
    ensures t.session.maxWidth == |Text(PressToStart)|
  {
    var p := Render.Pr(0, Text(PressToStart));
    Terminal(Session(Standby, None, p.maxWidth), Render.Overwrite("", p.line))
  }

  /** One tick of `handle_input`: step the game and print its lines. */
  function HandleInput(t: Terminal, input: Input): (r: Terminal)
    requires Coherent(t)
    ensures Coherent(r)
    ensures r.session == Step(t.session, input.key, input.now).session
    ensures r.session.maxWidth >= t.session.maxWidth
  {
    var f := Step(t.session, input.key, input.now);
    if f.lines == [] then
      Terminal(f.session, t.screen)
    else
      Render.PrAllLeavesNoStaleCharacters(t.screen, t.session.maxWidth, Texts(f.shown));
      Terminal(f.session, Render.ShowAll(t.screen, f.lines))
  }

  /** The program after a sequence of ticks. */
  function Run(t: Terminal, inputs: seq<Input>): (r: Terminal)
    requires Coherent(t)
    ensures Coherent(r)
    ensures r.session.maxWidth >= t.session.maxWidth
    decreases |inputs|
  {
    if inputs == [] then t else Run(HandleInput(t, inputs[0]), inputs[1..])
  }

  /** The scheduler loop: one `handle_input` per input, in order. */
  method Play(t: Terminal, inputs: seq<Input>) returns (r: Terminal)
    requires Coherent(t)
    ensures r == Run(t, inputs)
    ensures Coherent(r)
  {
    r := t;
    var i := 0;
    while i < |inputs|
      invariant 0 <= i <= |inputs|
      invariant Coherent(r)
      invariant Run(t, inputs) == Run(r, inputs[i..])
    {
      assert inputs[i..][1..] == inputs[i + 1..];
      r := HandleInput(r, inputs[i]);
      i := i + 1;
    }
  }

  /** Every message shown during a run, in order. */
  function Shown(t: Terminal, inputs: seq<Input>): seq<Message>
    requires Coherent(t)
    decreases |inputs|
  {
    if inputs == [] then []
    else Step(t.session, inputs[0].key, inputs[0].now).shown + Shown(HandleInput(t, inputs[0]), inputs[1..])
  }

  /** The clock readings of successive ticks never decrease. */
  predicate ClockNeverStepsBack(inputs: seq<Input>)
  {
    forall i, j :: 0 <= i < j < |inputs| ==> inputs[i].now <= inputs[j].now
  }

  /**
   * With a clock that never steps back (and a round in progress, if any,
   * that started no later than the first tick), every countdown shown
   * during a run lies in (0, DELAY].
   */
  lemma {:induction false} CountdownsStayWithinDelay(t: Terminal, inputs: seq<Input>)
    requires Coherent(t)
    requires ClockNeverStepsBack(inputs)
    requires inputs != [] && t.session.state == Timing ==> t.session.start.value <= inputs[0].now
    ensures forall i :: 0 <= i < |Shown(t, inputs)| ==> WithinDelay(Shown(t, inputs)[i])
    decreases |inputs|
  {
    if inputs != [] {
      var head := Step(t.session, inputs[0].key, inputs[0].now).shown;
      var t1 := HandleInput(t, inputs[0]);
      CountdownWithinDelay(t.session, inputs[0].key, inputs[0].now);
      assert ClockNeverStepsBack(inputs[1..]) by {
        assert forall i :: 0 <= i < |inputs[1..]| ==> inputs[1..][i] == inputs[i + 1];
      }
      if |inputs| > 1 {
        assert inputs[1..][0].now == inputs[1].now;
      }
      CountdownsStayWithinDelay(t1, inputs[1..]);
      assert Shown(t, inputs) == head + Shown(t1, inputs[1..]);
    }
  }

  /** Under the same conditions every countdown shown during a run is four characters wide. */
  lemma CountdownTextsAreFourWide(t: Terminal, inputs: seq<Input>)
    requires Coherent(t)
    requires ClockNeverStepsBack(inputs)
    requires inputs != [] && t.session.state == Timing ==> t.session.start.value <= inputs[0].now
    ensures forall i :: 0 <= i < |Shown(t, inputs)| && Shown(t, inputs)[i].TimeLeft? ==>
      |Text(Shown(t, inputs)[i])| == 4
  {
    var all := Shown(t, inputs);
    CountdownsStayWithinDelay(t, inputs);
    forall i | 0 <= i < |all| && all[i].TimeLeft?
      ensures |Text(all[i])| == 4
    {
      assert WithinDelay(all[i]);
      Countdown.CountdownTextWidth(all[i].seconds);
    }
  }

  /**
   * After a tick that prints, the terminal line shows exactly the last
   * message followed by spaces; after a tick that prints nothing, it still
   * shows what it showed.
   */
  lemma ScreenShowsLastMessage(t: Terminal, input: Input)
    requires Coherent(t)
    ensures var f := Step(t.session, input.key, input.now);
            f.shown != [] ==> Render.PaddedFrom(HandleInput(t, input).screen, Text(f.shown[|f.shown| - 1]))
    ensures Step(t.session, input.key, input.now).shown == [] ==> HandleInput(t, input).screen == t.screen
  {
    var f := Step(t.session, input.key, input.now);
    if f.shown != [] {
      Render.PrAllLeavesNoStaleCharacters(t.screen, t.session.maxWidth, Texts(f.shown));
    }
  }

  /**
   * Outside a round, the last message stays on screen and nothing changes
   * for as long as no trigger is pressed.
   */
  lemma {:induction false} OutcomeStaysWithoutTrigger(t: Terminal, inputs: seq<Input>)
    requires Coherent(t) && t.session.state != Timing
    requires forall i :: 0 <= i < |inputs| ==> !Keys.TriggerKeyDetected(inputs[i].key)
    ensures Run(t, inputs) == t
    decreases |inputs|
  {
    if inputs != [] {
      IdleWithoutTrigger(t.session, inputs[0].key, inputs[0].now);
      assert HandleInput(t, inputs[0]) == t;
      OutcomeStaysWithoutTrigger(t, inputs[1..]);
    }
  }

}

=== FILE: game.dfy ===
/**
 * The per-tick game logic of ziptrainer.py: the three game states, the
 * handler for each, and the dispatch that runs one of them per tick.
 * The process-wide globals (game state, round start, widest line so far)
 * are the fields of one immutable `Session`; the clock reading and the key
 * read this tick are parameters.
 */
module Game {

  import opened Options
  import Config
  import Keys
  import Render
  import Countdown

  datatype State = Standby | Timing | GameOver

  /**
   * The program's globals. `start` is the round start time: unset until the
   * first round begins, and left as it was (stale) once a round ends.
   */
  datatype Session = Session(state: State, start: Option<real>, maxWidth: nat)

  /** A round in progress always has a start time (`handle_timing` reads it unconditionally). */
  predicate Valid(s: Session)
  {
    s.state == Timing ==> s.start.Some?
  }

  /** What a tick can put on screen. */
  datatype Message =
    | PressToStart
    | TimeLeft(seconds: real)
    | TooEarly
    | Now
    | Perfect
    | TooSlow

  /**
   * The text `pr` is given for a message. Only the countdown carries a
   * decimal point three characters from its end, and it reads back as the
   * time left rounded to hundredths; every fixed message is at most 18
   * characters wide, the prompt exactly 16.
   */
  function Text(m: Message): (t: string)
    ensures |t| >= 4
    ensures m.TimeLeft? <==> t[|t| - 3] == '.'
    ensures m.TimeLeft? ==> Countdown.ReadFixed2(t) == Countdown.RoundHalfEven(m.seconds * 100.0)
    ensures !m.TimeLeft? ==> |t| <= 18
    ensures m == PressToStart ==> |t| == 16
  {
    if m.TimeLeft? then Countdown.Fixed2(m.seconds) else FixedText(m)
  }

  /** The literal text of every message other than the countdown. */
  function FixedText(m: Message): (t: string)
    requires !m.TimeLeft?
    ensures 4 <= |t| <= 18 && t[|t| - 3] != '.'
    ensures m == PressToStart ==> |t| == 16
  {
    match m
    case PressToStart => var t := "press W to start"; assert |t| == 16 && t[13] == 'a'; t
    case TooEarly => var t := "Too early!"; assert |t| == 10 && t[7] == 'l'; t
    case Now => var t := "Now!"; assert |t| == 4 && t[1] == 'o'; t
    case Perfect => var t := "Perfect!"; assert |t| == 8 && t[5] == 'c'; t
    case TooSlow => var t := "You were too slow!"; assert |t| == 18 && t[15] == 'o'; t
  }

  function Texts(ms: seq<Message>): seq<string>
  {
    seq(|ms|, i requires 0 <= i < |ms| => Text(ms[i]))
  }

  /** Which of the three time branches of `handle_timing` an elapsed time falls in. */
  datatype Phase = Early | Window | Late

  /**
   * The branches are the half-open intervals [0, DELAY), [DELAY, DELAY+WINDOW)
   * and [DELAY+WINDOW, infinity) (with everything below 0 counted as early):
   * every elapsed time falls in exactly one of them.
   */
  function PhaseOf(elapsed: real): (p: Phase)
    ensures p == Early <==> elapsed < Config.InputDelaySec
    ensures p == Window <==> Config.InputDelaySec <= elapsed < Config.InputDelaySec + Config.InputWindowSec
    ensures p == Late <==> Config.InputDelaySec + Config.InputWindowSec <= elapsed
  {
    if elapsed < Config.InputDelaySec then Early
    else if elapsed < Config.InputDelaySec + Config.InputWindowSec then Window
    else Late
  }

  /** The outcome of one handler: the next state and round start, and the messages rendered in order. */
  datatype Decision = Decision(state: State, start: Option<real>, shown: seq<Message>)

  /**
   * `start_new_game`: timing begins with the round start set to now, so at
   * that instant the countdown branch applies.
   */
  function StartNewGame(now: real): (d: Decision)
    ensures d.state == Timing && d.start == Some(now) && d.shown == []
    ensures PhaseOf(now - d.start.value) == Early
  {
    Decision(Timing, Some(now), [])
  }

  /**
   * `handle_standby`: renders nothing; "w" or "W" starts a round now, any
   * other key (or none) leaves the state and the round start as they were.
   */
  function HandleStandby(start: Option<real>, key: Option<string>, now: real): (d: Decision)
    ensures d.shown == []
    ensures d.state == Timing <==> key == Some("w") || key == Some("W")
    ensures d.state == Timing ==> d.start == Some(now)
    ensures d.state != Timing ==> d.state == Standby && d.start == start
  {
    if Keys.TriggerKeyDetected(key) then StartNewGame(now) else Decision(Standby, start, [])
  }

  /** `handle_game_over`: the same as `handle_standby`, staying in GAME_OVER when idle. */
  function HandleGameOver(start: Option<real>, key: Option<string>, now: real): (d: Decision)
    ensures d.shown == []
    ensures d.state == Timing <==> key == Some("w") || key == Some("W")
    ensures d.state == Timing ==> d.start == Some(now)
    ensures d.state != Timing ==> d.state == GameOver && d.start == start
  {
    if Keys.TriggerKeyDetected(key) then StartNewGame(now) else Decision(GameOver, start, [])
  }

  /**
   * `handle_timing`: the first message is the positive time left, "Now!" or
   * "You were too slow!" exactly as the elapsed time lies in the countdown,
   * the window or past it. A trigger adds a second message in the first two
   * cases, and the round goes on exactly when it is not over and no trigger
   * came; only a trigger in the countdown returns to STANDBY. The round
   * start is kept.
   */
  function HandleTiming(start: real, key: Option<string>, now: real): (d: Decision)
    ensures d.start == Some(start)
    ensures 1 <= |d.shown| <= 2
    ensures d.shown[0].TimeLeft? <==> PhaseOf(now - start) == Early
    ensures d.shown[0] == Now <==> PhaseOf(now - start) == Window
    ensures d.shown[0] == TooSlow <==> PhaseOf(now - start) == Late
    ensures d.shown[0].TimeLeft? ==> d.shown[0].seconds == Config.InputDelaySec - (now - start) > 0.0
    ensures |d.shown| == 2 <==> PhaseOf(now - start) != Late && Keys.TriggerKeyDetected(key)
    ensures |d.shown| == 2 ==> d.shown[1] == (if PhaseOf(now - start) == Early then TooEarly else Perfect)
    ensures d.state == Timing <==> PhaseOf(now - start) != Late && !Keys.TriggerKeyDetected(key)
    ensures d.state == Standby <==> PhaseOf(now - start) == Early && Keys.TriggerKeyDetected(key)
  {
    var elapsed := now - start;
    var left := Config.InputDelaySec - elapsed;
    var pressed := Keys.TriggerKeyDetected(key);
    match PhaseOf(elapsed)
    case Early =>
      if pressed then Decision(Standby, Some(start), [TimeLeft(left), TooEarly])
      else Decision(Timing, Some(start), [TimeLeft(left)])
    case Window =>
      if pressed then Decision(GameOver, Some(start), [Now, Perfect])
      else Decision(Timing, Some(start), [Now])
    case Late =>
      Decision(GameOver, Some(start), [TooSlow])
  }

  /**
   * The state dispatch of `handle_input`: exactly one handler runs per tick.
   * Outside TIMING nothing is rendered and only the trigger leaves the
   * state; in TIMING the round start is kept; TIMING always has a start.
   */
  function Dispatch(s: Session, key: Option<string>, now: real): (d: Decision)
    requires Valid(s)
    ensures d.state == Timing ==> d.start.Some?
    ensures s.state == Timing ==> d.start == s.start && d.shown != []
    ensures s.state != Timing ==> d.shown == []
    ensures s.state != Timing ==> (d.state == Timing <==> Keys.TriggerKeyDetected(key))
    ensures s.state != Timing && d.state != Timing ==> d.state == s.state && d.start == s.start
  {
    match s.state
    case Standby => HandleStandby(s.start, key, now)
    case Timing => HandleTiming(s.start.value, key, now)
    case GameOver => HandleGameOver(s.start, key, now)
  }

  /** The session after a tick, the messages it rendered and the padded lines it printed. */
  datatype Frame = Frame(session: Session, shown: seq<Message>, lines: seq<string>)

  /** Seconds since the round started. */
  function Elapsed(s: Session, now: real): real
    requires s.start.Some?
  {
    now - s.start.value
  }

  /**
   * One tick: run the handler for the current state, then print what it
   * rendered through `pr`. A tick keeps the session valid, never narrows
   * the padding width, prints at most two lines, prints only in TIMING, and
   * keeps the round start while a round goes on. In TIMING its first line is
   * the countdown, "Now!" or "You were too slow!" exactly as the elapsed
   * time falls in the countdown, the window or past it: one branch per tick.
   */
  function Step(s: Session, key: Option<string>, now: real): (r: Frame)
    requires Valid(s)
    ensures Valid(r.session)
    ensures r.session.maxWidth >= s.maxWidth
    ensures |r.lines| == |r.shown| <= 2
    ensures s.state != Timing ==> r.lines == [] && r.session.maxWidth == s.maxWidth
    ensures s.state == Timing ==> r.lines != [] && r.session.start == s.start
    ensures r.session.state == Timing && r.session.start != s.start ==> r.session.start == Some(now)
    ensures s.state == Timing ==> (r.shown[0].TimeLeft? <==> PhaseOf(Elapsed(s, now)) == Early)
    ensures s.state == Timing ==> (r.shown[0] == Now <==> PhaseOf(Elapsed(s, now)) == Window)
    ensures s.state == Timing ==> (r.shown[0] == TooSlow <==> PhaseOf(Elapsed(s, now)) == Late)
  {
    var d := Dispatch(s, key, now);
    var rendered := Render.PrAll(s.maxWidth, Texts(d.shown));
    Frame(Session(d.state, d.start, rendered.maxWidth), d.shown, rendered.lines)
  }

  // ---------------------------------------------------------------------
  // Properties of a tick
  // ---------------------------------------------------------------------

  /** In STANDBY or GAME_OVER a non-trigger tick changes nothing and prints nothing. */
  lemma IdleWithoutTrigger(s: Session, key: Option<string>, now: real)
    requires Valid(s) && s.state != Timing
    requires !Keys.TriggerKeyDetected(key)
    ensures Step(s, key, now) == Frame(s, [], [])
  {
  }

  /**
   * In STANDBY or GAME_OVER a trigger starts a round at `now` and prints
   * nothing; at that instant the elapsed time is zero, inside the countdown.
   */
  lemma TriggerStartsRound(s: Session, key: Option<string>, now: real)
    requires Valid(s) && s.state != Timing
    requires Keys.TriggerKeyDetected(key)
    ensures Step(s, key, now) == Frame(Session(Timing, Some(now), s.maxWidth), [], [])
    ensures Elapsed(Step(s, key, now).session, now) == 0.0 < Config.InputDelaySec
    ensures PhaseOf(Elapsed(Step(s, key, now).session, now)) == Early
  {
  }

  /**
   * During the countdown the time left is positive and is shown first; a
   * trigger then shows "Too early!" and goes back to STANDBY, otherwise the
   * round goes on.
   */
  lemma CountdownTick(s: Session, key: Option<string>, now: real)
    requires Valid(s) && s.state == Timing
    requires Elapsed(s, now) < Config.InputDelaySec
    ensures Config.InputDelaySec - Elapsed(s, now) > 0.0
    ensures Step(s, key, now).shown[0] == TimeLeft(Config.InputDelaySec - Elapsed(s, now))
    ensures Keys.TriggerKeyDetected(key) ==>
      && Step(s, key, now).shown == [TimeLeft(Config.InputDelaySec - Elapsed(s, now)), TooEarly]
      && Step(s, key, now).session.state == Standby
    ensures !Keys.TriggerKeyDetected(key) ==>
      && Step(s, key, now).shown == [TimeLeft(Config.InputDelaySec - Elapsed(s, now))]
      && Step(s, key, now).session.state == Timing
  {
  }

  /**
   * Inside the window "Now!" is shown first; a trigger then shows "Perfect!"
   * and ends the game, otherwise the round goes on.
   */
  lemma WindowTick(s: Session, key: Option<string>, now: real)
    requires Valid(s) && s.state == Timing
    requires Config.InputDelaySec <= Elapsed(s, now) < Config.InputDelaySec + Config.InputWindowSec
    ensures Step(s, key, now).shown[0] == Now
    ensures Keys.TriggerKeyDetected(key) ==>
      Step(s, key, now).shown == [Now, Perfect] && Step(s, key, now).session.state == GameOver
    ensures !Keys.TriggerKeyDetected(key) ==>
      Step(s, key, now).shown == [Now] && Step(s, key, now).session.state == Timing
  {
  }

  /** Once the window has passed, "You were too slow!" is shown and the game ends, whatever the key. */
  lemma LateTick(s: Session, key: Option<string>, now: real)
    requires Valid(s) && s.state == Timing
    requires Elapsed(s, now) >= Config.InputDelaySec + Config.InputWindowSec
    ensures Step(s, key, now).shown == [TooSlow]
    ensures Step(s, key, now).session.state == GameOver
  {
  }

  /**
   * The window is half-open: a tick exactly DELAY seconds into the round is
   * in it, one exactly DELAY+WINDOW seconds in is already too slow.
   */
  lemma WindowIsHalfOpen(s: Session, key: Option<string>)
    requires Valid(s) && s.state == Timing
    ensures Step(s, key, s.start.value + Config.InputDelaySec).shown[0] == Now
    ensures Step(s, key, s.start.value + Config.InputDelaySec + Config.InputWindowSec).shown == [TooSlow]
  {
  }

  /**
   * With a strictly increasing clock, the countdown shown on two successive
   * ticks of one round strictly decreases.
   */
  lemma CountdownStrictlyDecreases(s: Session, key1: Option<string>, now1: real, key2: Option<string>, now2: real)
    requires Valid(s) && s.state == Timing
    requires now1 < now2
    requires Step(s, key1, now1).session.state == Timing
    requires Elapsed(s, now2) < Config.InputDelaySec
    ensures Step(Step(s, key1, now1).session, key2, now2).shown[0].TimeLeft?
    ensures Step(s, key1, now1).shown[0].TimeLeft?
    ensures Step(Step(s, key1, now1).session, key2, now2).shown[0].seconds < Step(s, key1, now1).shown[0].seconds
  {
    var s1 := Step(s, key1, now1).session;
    assert s1.start == s.start;
    CountdownTick(s, key1, now1);
    CountdownTick(s1, key2, now2);
  }

  /** A countdown message shows a time left in (0, DELAY]; other messages trivially qualify. */
  predicate WithinDelay(m: Message)
  {
    m.TimeLeft? ==> 0.0 < m.seconds <= Config.InputDelaySec
  }

  /**
   * If the clock has not stepped back since the round started, every
   * countdown a tick shows lies in (0, DELAY], and a round still running
   * afterwards started no later than now.
   */
  lemma CountdownWithinDelay(s: Session, key: Option<string>, now: real)
    requires Valid(s)
    requires s.state == Timing ==> s.start.value <= now
    ensures forall i :: 0 <= i < |Step(s, key, now).shown| ==> WithinDelay(Step(s, key, now).shown[i])
    ensures Step(s, key, now).session.state == Timing ==> Step(s, key, now).session.start.value <= now
  {
  }

  /**
   * Every printed line is its message's text followed by spaces only, and
   * the last one spans the full padding width, so it hides any older text.
   */
  lemma StepPadsLines(s: Session, key: Option<string>, now: real)
    requires Valid(s)
    ensures forall i :: 0 <= i < |Step(s, key, now).lines| ==>
      Render.PaddedFrom(Step(s, key, now).lines[i], Text(Step(s, key, now).shown[i]))
    ensures Step(s, key, now).lines != [] ==>
      |Step(s, key, now).lines[|Step(s, key, now).lines| - 1]| == Step(s, key, now).session.maxWidth
  {
    var d := Dispatch(s, key, now);
    Render.PrAllPadsEachLine(s.maxWidth, Texts(d.shown));
  }

  /**
   * A press that is too early returns to STANDBY rather than GAME_OVER; the
   * two states react to every key and time identically (same lines, same
   * round start, same width), so the difference is not observable.
   */
  lemma StandbyActsLikeGameOver(s: Session, key: Option<string>, now: real)
    requires s.state != Timing
    ensures var a := Step(s.(state := Standby), key, now);
            var b := Step(s.(state := GameOver), key, now);
            && a.shown == b.shown && a.lines == b.lines
            && a.session.start == b.session.start && a.session.maxWidth == b.session.maxWidth
            && (a.session.state == Timing <==> b.session.state == Timing)
  {
  }

}

=== FILE: keys.dfy ===
/** Trigger-key detection: `trigger_key_detected` in ziptrainer.py. */
module Keys {

  import opened Options
  import Config

  /** Upper-cases one ASCII letter and leaves every other character alone. */
  function UpperChar(c: char): (u: char)
    ensures u == 'W' <==> c == 'w' || c == 'W'
    ensures !('a' <= c <= 'z') ==> u == c
  {
    if 'a' <= c <= 'z' then (c as int - 'a' as int + 'A' as int) as char else c
  }

  /** `str.upper()`, restricted to ASCII case mapping. */
  function Upper(s: string): (u: string)
    ensures |u| == |s|
    ensures forall i :: 0 <= i < |s| ==> u[i] == UpperChar(s[i])
  {
    if s == [] then [] else [UpperChar(s[0])] + Upper(s[1..])
  }

  /**
   * True when a key was read and its upper-case form is the trigger "W".
   * A missing key (the `upper` call fails and the failure is swallowed),
   * an empty read and every other character are simply "not pressed".
   */
  function TriggerKeyDetected(key: Option<string>): (pressed: bool)
    ensures pressed <==> key == Some("w") || key == Some("W")
  {
    match key
    case None => false
    case Some(k) =>
      var u := Upper(k);
      assert u == [Config.TriggerChar] ==> |k| == 1 && k == [k[0]];
      u == [Config.TriggerChar]
  }

}

=== FILE: options.dfy ===
/** The optional value used for "a key was read this tick, or nothing was". */
module Options {

  datatype Option<+T> = None | Some(value: T)

}

=== FILE: render.dfy ===
/**
 * The render helper `pr` of ziptrainer.py: every line is right-padded with
 * spaces to the widest line rendered so far, and is written after a carriage
 * return so that it overwrites the terminal line in place.
 */
module Render {

  /** `" " * n`. */
  function Spaces(n: nat): (r: string)
    ensures |r| == n
    ensures forall i :: 0 <= i < n ==> r[i] == ' '
  {
    if n == 0 then [] else [' '] + Spaces(n - 1)
  }

  /** `line` is `text` followed by nothing but spaces. */
  predicate PaddedFrom(line: string, text: string)
  {
    && |text| <= |line|
    && line[..|text|] == text
    && forall i :: |text| <= i < |line| ==> line[i] == ' '
  }

  /** The running maximum width after a render, and the padded line that render writes. */
  datatype Printed = Printed(maxWidth: nat, line: string)

  /** One call of `pr`: widen the running maximum if needed and pad the text to it. */
  function Pr(maxWidth: nat, text: string): (r: Printed)
    ensures r.maxWidth >= maxWidth && r.maxWidth >= |text|
    ensures r.maxWidth == maxWidth || r.maxWidth == |text|
    ensures |r.line| == r.maxWidth
    ensures PaddedFrom(r.line, text)
  {
    var width := if maxWidth < |text| then |text| else maxWidth;
    var line := text + Spaces(width - |text|);
    assert line[..|text|] == text;
    Printed(width, line)
  }

  /** The running maximum width after several renders, and the lines written. */
  datatype Rendered = Rendered(maxWidth: nat, lines: seq<string>)

  /**
   * Successive calls of `pr` on `texts`, threading the maximum width.
   * Lines never get shorter; the last one is exactly as wide as the new
   * maximum, which is the largest of the old maximum and the text lengths.
   * (That every line is its text padded with spaces is `PrAllPadsEachLine`.)
   */
  function PrAll(maxWidth: nat, texts: seq<string>): (r: Rendered)
    ensures |r.lines| == |texts|
    ensures r.maxWidth >= maxWidth
    ensures forall i :: 0 <= i < |texts| ==> |texts[i]| <= r.maxWidth
    ensures r.maxWidth == maxWidth || exists i :: 0 <= i < |texts| && r.maxWidth == |texts[i]|
    ensures forall i :: 0 <= i < |texts| ==> maxWidth <= |r.lines[i]| <= r.maxWidth
    ensures forall i, j :: 0 <= i < j < |texts| ==> |r.lines[i]| <= |r.lines[j]|
    ensures texts == [] ==> r.maxWidth == maxWidth
    ensures texts != [] ==> |r.lines[|texts| - 1]| == r.maxWidth
    decreases |texts|
  {
    if texts == [] then Rendered(maxWidth, [])
    else
      var p := Pr(maxWidth, texts[0]);
      var rest := PrAll(p.maxWidth, texts[1..]);
      var r := Rendered(rest.maxWidth, [p.line] + rest.lines);
      assert r.lines[0] == p.line;
      assert forall i :: 1 <= i < |texts| ==> r.lines[i] == rest.lines[i - 1];
      assert forall i :: 1 <= i < |texts| ==> texts[i] == texts[1..][i - 1];
      assert rest.maxWidth != p.maxWidth ==> exists i :: 1 <= i < |texts| && rest.maxWidth == |texts[i]|;
      r
  }

  /** Every line `PrAll` writes is its own text followed by spaces only. */
  lemma {:induction false} PrAllPadsEachLine(maxWidth: nat, texts: seq<string>)
    ensures forall i :: 0 <= i < |texts| ==> PaddedFrom(PrAll(maxWidth, texts).lines[i], texts[i])
    decreases |texts|
  {
    if texts != [] {
      var p := Pr(maxWidth, texts[0]);
      var rest := PrAll(p.maxWidth, texts[1..]);
      var r := PrAll(maxWidth, texts);
      PrAllPadsEachLine(p.maxWidth, texts[1..]);
      forall i | 0 <= i < |texts|
        ensures PaddedFrom(r.lines[i], texts[i])
      {
        if i > 0 {
          assert r.lines[i] == rest.lines[i - 1];
          assert texts[i] == texts[1..][i - 1];
        }
      }
    }
  }

  /**
   * The terminal line after printing "\r" + `line`: the cursor returns to the
   * start and `line` overwrites that many characters; any longer tail of the
   * previous content stays visible.
   */
  function Overwrite(screen: string, line: string): (r: string)
    ensures |r| == if |line| < |screen| then |screen| else |line|
    ensures r[..|line|] == line
    ensures forall i :: |line| <= i < |r| ==> r[i] == screen[i]
  {
    if |line| < |screen| then line + screen[|line|..] else line
  }

  /**
   * The terminal line after printing each of `lines` in turn: it starts with
   * the last line printed, and it is as wide as the widest of the old content
   * and the lines printed.
   */
  function ShowAll(screen: string, lines: seq<string>): (r: string)
    ensures lines == [] ==> r == screen
    ensures |r| >= |screen|
    ensures forall i :: 0 <= i < |lines| ==> |lines[i]| <= |r|
    ensures lines != [] ==> r[..|lines[|lines| - 1]|] == lines[|lines| - 1]
    ensures |r| == |screen| || exists i :: 0 <= i < |lines| && |r| == |lines[i]|
    decreases |lines|
  {
    if lines == [] then screen else ShowAll(Overwrite(screen, lines[0]), lines[1..])
  }

  /**
   * Padding leaves nothing stale: when the terminal line is no wider than the
   * running maximum, rendering at least one text leaves exactly the last
   * padded line on screen, which is as wide as the new maximum.
   */
  lemma {:induction false} PrAllLeavesNoStaleCharacters(screen: string, maxWidth: nat, texts: seq<string>)
    requires |screen| <= maxWidth
    requires texts != []
    ensures ShowAll(screen, PrAll(maxWidth, texts).lines) == PrAll(maxWidth, texts).lines[|texts| - 1]
    ensures PaddedFrom(ShowAll(screen, PrAll(maxWidth, texts).lines), texts[|texts| - 1])
    ensures |ShowAll(screen, PrAll(maxWidth, texts).lines)| == PrAll(maxWidth, texts).maxWidth
    decreases |texts|
  {
    var p := Pr(maxWidth, texts[0]);
    var r := PrAll(maxWidth, texts);
    assert r.lines[1..] == PrAll(p.maxWidth, texts[1..]).lines;
    assert Overwrite(screen, p.line) == p.line;
    PrAllPadsEachLine(maxWidth, texts);
    if |texts| > 1 {
      PrAllLeavesNoStaleCharacters(p.line, p.maxWidth, texts[1..]);
      assert texts[1..][|texts[1..]| - 1] == texts[|texts| - 1];
    }
  }

}

=== FILE: scenarios.dfy ===
/**
 * End-to-end rounds of the trainer, with the default configuration
 * (three seconds of countdown, a one-second window) and a round that
 * started at an arbitrary time `t0`.
 */
module Scenarios {

  import opened Options
  import Render
  import opened Game
  import opened Driver

  /** A pressed "w" in STANDBY starts a round now. */
  lemma PressInStandbyStartsRound(t0: real, width: nat)
    ensures Step(Session(Standby, None, width), Some("w"), t0) == Frame(Session(Timing, Some(t0), width), [], [])
  {
  }

  /** One second in, with no key, the countdown reads "2.00" and the round goes on. */
  lemma OneSecondInShowsTwoSecondsLeft(t0: real, width: nat)
    ensures var f := Step(Session(Timing, Some(t0), width), None, t0 + 1.0);
            && f.session.state == Timing
            && f.shown == [TimeLeft(2.0)]
            && Render.PaddedFrom(f.lines[0], "2.00")
  {
    Countdown.TwoSecondsLeftReads200();
    StepPadsLines(Session(Timing, Some(t0), width), None, t0 + 1.0);
  }

  /** Three and a half seconds in, "W" is "Perfect!" and the game is over. */
  lemma PressInWindowIsPerfect(t0: real, width: nat)
    ensures var f := Step(Session(Timing, Some(t0), width), Some("W"), t0 + 3.5);
            f.shown == [Now, Perfect] && f.session.state == GameOver
  {
  }

  /** One second in, "w" is "Too early!" and the game goes back to STANDBY. */
  lemma PressInCountdownIsTooEarly(t0: real, width: nat)
    ensures var f := Step(Session(Timing, Some(t0), width), Some("w"), t0 + 1.0);
            f.shown == [TimeLeft(2.0), TooEarly] && f.session.state == Standby
  {
  }

  /** Four and a half seconds in, with no key, the player was too slow. */
  lemma NoPressIsTooSlow(t0: real, width: nat)
    ensures var f := Step(Session(Timing, Some(t0), width), None, t0 + 4.5);
            f.shown == [TooSlow] && f.session.state == GameOver
  {
  }

  /** A pressed "w" in GAME_OVER starts a fresh round now, as from STANDBY. */
  lemma PressInGameOverStartsRound(t0: real, t1: real, width: nat)
    ensures Step(Session(GameOver, Some(t0), width), Some("w"), t1) == Frame(Session(Timing, Some(t1), width), [], [])
  {
  }

  /** A run is its first tick followed by the run of the rest. */
  lemma RunFirstTick(t: Terminal, inputs: seq<Input>)
    requires Coherent(t) && inputs != []
    ensures Run(t, inputs) == Run(HandleInput(t, inputs[0]), inputs[1..])
  {
  }

  /** Three ticks in a row are the three `handle_input` calls in order. */
  lemma RunThreeTicks(t: Terminal, a: Input, b: Input, c: Input)
    requires Coherent(t)
    ensures Run(t, [a, b, c]) == HandleInput(HandleInput(HandleInput(t, a), b), c)
  {
    var t1 := HandleInput(t, a);
    var t2 := HandleInput(t1, b);
    var t3 := HandleInput(t2, c);
    RunFirstTick(t, [a, b, c]);
    assert [a, b, c][1..] == [b, c];
    RunFirstTick(t1, [b, c]);
    assert [b, c][1..] == [c];
    RunFirstTick(t2, [c]);
    assert [c][1..] == [];
    assert Run(t3, []) == t3;
  }

  /** Start-up leaves STANDBY on screen with the 16-character prompt. */
  lemma BootState()
    ensures Boot().session == Session(Standby, None, 16)
  {
  }

  /** A countdown tick with no key keeps the round and the 16-character width. */
  lemma QuietCountdownTick(t: Terminal, t0: real)
    requires Coherent(t) && t.session == Session(Timing, Some(t0), 16)
    ensures HandleInput(t, Input(None, t0 + 1.0)).session == Session(Timing, Some(t0), 16)
  {
    Countdown.CountdownTextWidth(2.0);
    assert Texts([TimeLeft(2.0)]) == [Countdown.Fixed2(2.0)];
  }

  /** "W" in the window leaves "Perfect!" on screen and ends the game. */
  lemma PerfectTick(t: Terminal, t0: real)
    requires Coherent(t) && t.session == Session(Timing, Some(t0), 16)
    ensures var r := HandleInput(t, Input(Some("W"), t0 + 3.5));
            && r.session.state == GameOver
            && Render.PaddedFrom(r.screen, "Perfect!")
            && |r.screen| == 16
  {
    var input := Input(Some("W"), t0 + 3.5);
    WindowTick(t.session, input.key, input.now);
    ScreenShowsLastMessage(t, input);
    Render.PrAllLeavesNoStaleCharacters(t.screen, 16, Texts([Now, Perfect]));
  }

  /**
   * A whole round from start-up: press "w" at `t0`, wait one tick at
   * `t0 + 1`, press "W" at `t0 + 3.5`. The game is over and the terminal
   * line shows "Perfect!" padded to the width of the start prompt.
   */
  lemma PerfectRoundFromBoot(t0: real)
    ensures var t := Run(Boot(), [Input(Some("w"), t0), Input(None, t0 + 1.0), Input(Some("W"), t0 + 3.5)]);
            && t.session.state == GameOver
            && Render.PaddedFrom(t.screen, "Perfect!")
            && |t.screen| == 16
  {
    var a, b, c := Input(Some("w"), t0), Input(None, t0 + 1.0), Input(Some("W"), t0 + 3.5);
    RunThreeTicks(Boot(), a, b, c);
    BootState();
    TriggerStartsRound(Boot().session, a.key, a.now);
    var t1 := HandleInput(Boot(), a);
    QuietCountdownTick(t1, t0);
    PerfectTick(HandleInput(t1, b), t0);
  }

}
